=== FILE: README.md ===
# discord-tsx core, modelled in Dafny

discord-tsx lets a program write Discord messages as JSX. `createElement`
resolves each intrinsic tag (`embed`, `field`, `button`, `row`, `select`,
`modal`, …) into a payload object. A resolved button, select menu or modal that
carries a handler registers it in a process-wide map keyed by its custom id.
The client's `interactionCreate` listener looks each inbound interaction up in
that map, runs the handler, and expires the entry when it is "once". A
`DiscordStateComponent` keeps a state object that `setState` shallow-merges
before re-rendering.

The model has six modules:

- `Wrappers` (wrappers.dfy): `Option` for an absent property and `Result` for a call that may throw.
- `Values` (values.dfy): the JavaScript values the resolver observes.
  - Truthiness, `String(x)`, `join`, `flat(depth)`, object spread and property lookup.
  - The reference definitions `Leaves` (all nesting removed) and `Text` (rendered pieces concatenated), with the lemmas that connect `flat`/`join` to them.
- `Registry` (registry.dfy): the handler map (`Handlers`, a `map<Value, Listener>`), `set`/`delete`, `deleteHandler`, the client's once kinds, and the dispatcher.
  - The registry is an explicit value threaded through resolution and dispatch.
  - A handler's effect on the registry is a sequence of actions: `off`, `deleteHandler`, registering further handlers, or a synchronous throw that ends the handler.
- `Elements` (elements.dfy): one builder per intrinsic tag (`ElementBuilder`), plus the tag dispatch of `createElement` and `Fragment`.
  - Builders from the platform library are plain records (`Built(kind, data)`) holding the object passed to their constructor.
- `State` (state.dfy): component construction and the `setState` merge.
- `Scenarios` (scenarios.dfy): concrete resolutions and end-to-end resolve-then-dispatch properties.

Behaviour of the code worth knowing:

- `createElement` always replaces `props.children` with the positional children, even when a `children` prop was given (src/index.ts:245).
- A tag with no `ElementBuilder` entry throws a TypeError, because `undefined` is called. It does not resolve to `undefined`.
- Every "if present" test in the builders is a truthiness test. An empty `description`, `text`, `value` or `label` is replaced like a missing one.
- A `null` child of an embed without a description throws. `typeof null` is `"object"`, so `"name" in null` is evaluated.
- `footer` joins its children without flattening, so nested arrays render with commas. `field` and `button` flatten ten levels first.
- `row`, `select` and `modal` use the first child as the component list when it is an array, and otherwise all children. The source does no deeper flattening.
- A modal registers its `onSubmit` handler even when `customId` is missing. The map key is then `undefined`.
- `select` always builds a `SelectMenuBuilder` from its props, then adds the component list as options (src/index.ts:210-211).
- The dispatcher decides expiry from the listener it found before the handler ran.

## Model

| member | source | states |
|---|---|---|
| Values.FlatWithinDepth | src/index.ts:181 | `flat(d)` removes every level of nesting when arrays nest at most `d` deep: the result is the in-order leaves |
| Values.LeavesHaveNoArrays | src/index.ts:196 | the fully flattened children contain no arrays |
| Values.JoinEmptySeparator | src/index.ts:178 | `join("")` is the in-order concatenation of the rendered pieces, with `null`/`undefined` rendered empty |
| Values.JoinFlat | src/index.ts:181 | whenever nesting stays within `d`, `flat(d)` leaves no array behind and `flat(d).join("")` renders the leaves in order |
| Values.JoinFlatStrings | src/index.ts:196 | for string children, `flat(d).join("")` is exactly their concatenation |
| Registry.Register | src/index.ts:201-204 | registering puts the listener under its key, overwrites any earlier entry and keeps every other entry |
| Registry.Delete | src/index.ts:274 | `delete` reports a removal iff the key was present, removes only that key and keeps the rest |
| Registry.DeleteHandler | src/index.ts:263 | `deleteHandler(k)` returns true iff `k` was registered and removes only `k` |
| Registry.DeleteHandlerTwice | src/index.ts:263 | a second `deleteHandler` on the same key returns false and changes nothing |
| Registry.OnceKinds | src/index.ts:266-288 | the client's once kinds are modal first, then exactly the configured kinds, in order |
| Registry.Dispatch | src/index.ts:267-283 | an event without custom id, or with an unregistered one, leaves the registry unchanged; a listener that is once-only (explicit `once`, or its kind in the once kinds and `once !== false`) is gone afterwards unless its handler threw |
| Registry.OnceRule | src/index.ts:276-280 | `once: false` always keeps a listener, a truthy `once` always expires it, and any other `once` expires it exactly when its kind is one of the client's once kinds |
| Registry.RunHandlerThrow | src/index.ts:273-275 | a handler that throws has the effect of the actions before the throw, and nothing after it happens |
| Registry.DispatchThrowing | src/index.ts:273-281 | when the handler throws, the once check is skipped: the registry is exactly as the handler left it |
| Registry.ThrowingModalStays | src/index.ts:266-281 | with the default client, a modal whose handler throws at once stays registered, unchanged |
| Registry.RunOffOnly | src/index.ts:273-275 | a handler that only calls `off` removes exactly the dispatched key, and only if it called `off` at least once |
| Registry.DispatchWithOff | src/index.ts:270-281 | for a handler that may call `off`: the key is absent afterwards iff `off` was called or the listener is once-only; a surviving entry is unchanged; all other keys are unchanged |
| Registry.DispatchOtherKeys | src/index.ts:273-281 | whatever the handler does, every other key ends up exactly as the handler left it |
| Registry.DefaultModalExpires | src/index.ts:266-281 | with the default once kinds, a modal listener without `once` is removed after one event |
| Registry.DefaultButtonStays | src/index.ts:266-281 | with the default once kinds, a button listener without `once` stays registered, unchanged, when `off` is not called |
| Registry.OnceTrueButtonExpires | src/index.ts:276-281 | a button listener with `once: true` is removed after one event |
| Registry.OnceFalseModalStays | src/index.ts:276-281 | `once: false` keeps a modal listener registered |
| Registry.ConfiguredButtonExpires | src/index.ts:276-288 | adding the button kind to the client's once kinds makes button listeners without `once` expire |
| Elements.ParseTag | src/index.ts:257 | a tag name selects a builder only when it is that builder's own name |
| Elements.ParseTagName | src/index.ts:156-235 | every intrinsic tag is found under its own name |
| Elements.ReferenceCons | src/index.ts:163-168 | the reference description and field list unfold from the front: one child's part followed by the rest's |
| Elements.FoldChildrenMeaning | src/index.ts:161-169 | the embed loop throws iff a child is `null`; otherwise the description is `String(child)` of every non-array, non-field child in order, and the fields are the field-shaped children plus the spread contents of array children, in order |
| Elements.BuildEmbed | src/index.ts:159-174 | a falsy `description` is replaced by the folded description and fields; a truthy one is kept and `fields` is `[]`; a truthy footer goes through the footer rule and a falsy one is kept as given; the colour argument is `color` or `null`; no other key changes |
| Elements.BuildFooter | src/index.ts:175-178 | a string gives `{text}`; an object keeps its other keys, and `text` is its truthy `text` or else the children joined |
| Elements.BuildField | src/index.ts:179-183 | exactly `name`, `value` and `inline`; `name` and `inline` are copied even when undefined; `value` is the truthy `value`, or else the flattened children concatenated in order |
| Elements.ComponentsOf | src/index.ts:188 | the component list is the first child's elements when that child is an array, and otherwise all children with order and length kept |
| Elements.BuildRow | src/index.ts:185-189 | a row keeps every prop and sets `components` to the component list |
| Elements.ButtonStyleOf | src/index.ts:193-195 | the style is the truthy `style` prop, else Link (5) with a truthy `url`, else Primary (1) |
| Elements.ButtonLabelOf | src/index.ts:196 | the label is the truthy `label` prop, else the flattened children concatenated in order |
| Elements.BuildButton | src/index.ts:190-208 | throws iff `onClick`, `customId` and `url` are all truthy, and the registry is then unchanged; registers a button listener under `customId` only when `onClick` and `customId` are truthy; otherwise the payload is the props with style and label set |
| Elements.BuildSelect | src/index.ts:209-218 | options are the menu's given options followed by the component list; a select-menu listener is registered only with truthy `onChange` and `customId` |
| Elements.BuildModal | src/index.ts:221-232 | the payload is exactly `customId`, `title` and the component list; a modal listener is registered whenever `onSubmit` is truthy, under whatever `customId` holds |
| Elements.BuildInput | src/index.ts:233-234 | a text input keeps every prop and fixes `type` to 4 |
| Elements.ElementBuilder | src/index.ts:156-235 | `message` passes its props through, `br` is `"\n"`, `emoji` is the `emoji` prop, `option` is an option builder of the props, and every other tag is its own builder; only `embed` and `button` can throw, and a throw leaves the registry unchanged; only `button`, `select` and `modal` touch the registry; resolution never removes an entry and changes nothing but the element's `customId` key |
| Elements.MergeChildren | src/index.ts:245 | the props passed on are a copy of the given props with `children` always set to the positional children |
| Elements.Fragment | src/index.ts:259-262 | a fragment is its children, unchanged |
| Elements.CreateElement | src/index.ts:236-258 | an unknown tag name throws and leaves the registry unchanged; an intrinsic tag goes to its builder with the merged props; a state component class yields an instance carrying the merged props, which is a freshly constructed component with empty state when the class sets no state of its own; a fragment yields its children |
| State.NewStateComponent | src/index.ts:57-61 | a new state component keeps its props and starts with empty state |
| State.Merge | src/index.ts:66 | the merged state has the keys of both; the partial's values win, and other keys keep their old values |
| State.SetState | src/index.ts:65-66 | `setState` changes only the state, by the right-biased merge |
| State.SetStateIdempotent | src/index.ts:66 | applying the same partial twice equals applying it once |
| State.SetStateEmpty | src/index.ts:66 | `setState` with `undefined`, `null` or `{}` leaves the state unchanged |
| State.SetStateTwice | src/index.ts:66 | two updates in a row equal one update with the merged partials, the later one winning |
| Scenarios.FieldFromChildren | src/index.ts:179-183 | `<field name="A">x{"y"}</field>` resolves to `{name: "A", value: "xy", inline: undefined}` |
| Scenarios.FooterScenarios | src/index.ts:175-178 | `footer("hi")` is `{text: "hi"}`, and `footer({}, ["a", "b"])` is `{text: "ab"}` |
| Scenarios.FooterDoesNotFlatten | src/index.ts:178-181 | a nested array child gives footer text `"a,b"` but field value `"ab"` |
| Scenarios.ButtonValidity | src/index.ts:198-205 | `url` alone succeeds with no registration; `customId` with `onClick` succeeds and registers; all three throw with the registry unchanged |
| Scenarios.ButtonDefaultStyles | src/index.ts:193-195 | a link button without a style is Link, and a plain one is Primary |
| Scenarios.SharedComponentRule | src/index.ts:185-230 | `row`, `select` and `modal` build the same component list from the same children |
| Scenarios.PlainButtonResolves | src/index.ts:190-208 | a button without `onClick` resolves to a button payload and leaves the registry unchanged |
| Scenarios.ResolvedButtonIsBuilt | src/index.ts:190-208 | a button that resolves, with or without a click handler, is a button payload |
| Scenarios.RowOfComponents | src/index.ts:185-189 | a row whose first child is not an array has all its children as components |
| Scenarios.RowOfTwoButtons | src/index.ts:185-208 | whenever two buttons resolve, with or without click handlers, a row of them lists exactly those two, in source order |
| Scenarios.EmbedWithDescription | src/index.ts:159-169 | with an explicit description, the description is kept and `fields` is empty |
| Scenarios.MixedChildrenReference | src/index.ts:163-168 | text children are concatenated, a number via `String`, and field and array children are collected in order |
| Scenarios.EmbedFoldsChildren | src/index.ts:159-169 | the embed of `"Hello "`, a field, `4` and `[field]` has description `"Hello 4"` and both fields |
| Scenarios.EmbedNullChild | src/index.ts:165 | an embed with a `null` child throws, and the registry is unchanged |
| Scenarios.ChildrenPropReplaced | src/index.ts:245 | a given `children` prop is replaced by the positional children |
| Scenarios.UnknownTagThrows | src/index.ts:257 | an unknown intrinsic tag throws |
| Scenarios.ModalWithoutCustomId | src/index.ts:222-226 | a modal with `onSubmit` and no `customId` registers under `undefined` |
| Scenarios.ButtonSurvivesClick | src/index.ts:198-281 | a resolved button without `once` is still registered after its click is dispatched by a default client |
| Scenarios.ModalExpiresOnSubmit | src/index.ts:221-281 | a resolved modal without `once` is registered, and is gone after its submit is dispatched by a default client |

## Left out

- Elements.BuildField: the contract gives the derived `value` only for children nested at most ten arrays deep. The function computes `flat(10)` exactly, but the stringified deeper arrays are not described in the contract.
- Elements.ButtonLabelOf: the derived label is stated only for children nested at most ten arrays deep, for the same reason.
- Registry.DispatchWithOff: states the exact outcome only for handlers whose registry effects are calls to `off`. Other handler effects are covered by `Registry.DispatchOtherKeys` and the expiry clause of `Registry.Dispatch`.
- discord.js builder classes are records of the object handed to their constructor. Their own normalisation is not modelled: key renaming, emoji parsing (including `setEmoji`, src/index.ts:206), wrapping options in option builders, and validation errors.
- `setColor` colour resolution is not modelled. The embed records the argument passed to it (`color` or `null`).
- A non-array `options` prop on `select` counts as no prior options. The library would throw on it.
- `initializeState`/`useState` (src/index.ts:74-98) are left out: they check channel and interaction capabilities and then send or reply over the network.
- The render-and-deliver half of `setState` and `forceUpdate` (src/index.ts:67-72) is left out. It is network I/O; only the state merge is modelled.
- Elements.CreateElement: a `DiscordStateComponent` subclass is assumed to construct without throwing, without registering handlers, and by passing the merged props unchanged to `super`. Its own constructor (run by `Reflect.construct`, src/index.ts:251) is user code that could do any of these; only the initial state it sets is modelled.
- `Reflect.construct` and the prototype `render` check (src/index.ts:246-255) become a `TagRef` variant. Render results, function-component results and a subclass's initial state are opaque functions.
- Subscribing to `interactionCreate` (src/index.ts:287) and patching the channel and interaction prototypes (src/index.ts:292-293) are runtime plumbing and are left out.
- The JSX typing declarations (src/index.ts:112-153) carry no behaviour.
- Numbers are unbounded integers, whereas JavaScript numbers are doubles. Fractions, `NaN`, `Infinity` and `-0` are not modelled. Integers above 2^53 are not rounded to the nearest double. `String(n)` always prints every digit, whereas JavaScript switches to exponent form from 1e21 (`"1e+21"`). This affects every place a number is turned into a string, and only for such magnitudes: the embed's `String(child)` and the `join` of footer, field and button children.
- Spreading anything but a plain object contributes no keys. Strings and arrays would contribute index keys, and class or builder instances their own fields; the declared prop types rule these out.
- Tag names inherited from `Object.prototype` (`constructor`, `toString`, …) count as unknown tags.
- A custom `toString` on an object and a `name` key inherited through a prototype are not modelled. Objects stringify as `[object Object]`, and `"name" in` checks own keys only.
- Registry keys are compared structurally, whereas the JavaScript `Map` compares objects by identity. The two agree for the string and `undefined` keys the source produces.
- A handler's return value and any asynchronous work it starts are left out. Only its effect on the registry is modelled, including a synchronous throw. The throw itself propagating out of the client's listener is not modelled; only the skipped expiry is.
- Thrown errors are modelled as `Error` constructors, not as message text.

=== FILE: elements.dfy ===
/**
 The intrinsic element resolver (`ElementBuilder`) and the tag dispatch of
 `createElement`.  Every builder is a pure function of its props and its
 already-resolved children; the only effect, registering an interaction
 handler, is made explicit by threading the registry through.
 */
module Elements {
  import opened Wrappers
  import opened Values
  import opened Registry
  import opened State

  /** The intrinsic tags. */
  datatype Tag =
    | MessageTag | BrTag | EmbedTag | FooterTag | FieldTag | EmojiTag
    | RowTag | ButtonTag | SelectTag | OptionTag | ModalTag | InputTag

  /** The JSX name of each intrinsic tag. */
  function TagName(t: Tag): string {
    match t
    case MessageTag => "message"
    case BrTag => "br"
    case EmbedTag => "embed"
    case FooterTag => "footer"
    case FieldTag => "field"
    case EmojiTag => "emoji"
    case RowTag => "row"
    case ButtonTag => "button"
    case SelectTag => "select"
    case OptionTag => "option"
    case ModalTag => "modal"
    case InputTag => "input"
  }

  /** The `ElementBuilder` entry for a tag name, if there is one. */
  function ParseTag(name: string): (r: Option<Tag>)
    ensures r.Some? ==> TagName(r.value) == name
  {
    match name
    case "message" => Some(MessageTag)
    case "br" => Some(BrTag)
    case "embed" => Some(EmbedTag)
    case "footer" => Some(FooterTag)
    case "field" => Some(FieldTag)
    case "emoji" => Some(EmojiTag)
    case "row" => Some(RowTag)
    case "button" => Some(ButtonTag)
    case "select" => Some(SelectTag)
    case "option" => Some(OptionTag)
    case "modal" => Some(ModalTag)
    case "input" => Some(InputTag)
    case _ => None
  }

  /** Every intrinsic tag is found under its own name. */
  lemma ParseTagName(t: Tag)
    ensures ParseTag(TagName(t)) == Some(t)
  {
  }

  /** What resolution can throw. */
  datatype Error =
    | UrlWithHandler            // a button with `url` as well as `customId` and `onClick`
    | NameInNull                // the TypeError of `"name" in null` for a null embed child
    | NotAFunction(tag: string) // the TypeError of calling a missing `ElementBuilder` entry
    | Raised(reason: string)    // whatever a component's render or a function component throws

  /** A resolution result together with the registry it leaves behind. */
  datatype Resolved = Resolved(out: Result<Value, Error>, handlers: Handlers)

  /** `ButtonStyle.Primary` and `ButtonStyle.Link` of the platform. */
  const PrimaryStyle := 1
  const LinkStyle := 5
  /** `ComponentType.TextInput` of the platform. */
  const TextInputType := 4
  /** The depth `field` and `button` pass to `flat`. */
  const FlatDepth := 10

  // ---------------------------------------------------------------- embed

  /** A child the embed turns into a field: a plain object with a `name` key. */
  predicate IsField(v: Value) {
    v.Obj? && "name" in v.props
  }

  /** A child the embed appends to its description. */
  predicate IsText(v: Value) {
    !v.Arr? && !v.Null? && !IsField(v)
  }

  /** The description text and field list an embed folds its children into. */
  datatype EmbedBody = EmbedBody(description: string, fields: seq<Value>)

  /** One iteration of the embed's loop over its children. */
  function EmbedStep(acc: EmbedBody, child: Value): Result<EmbedBody, Error> {
    if child.Arr? then Ok(acc.(fields := acc.fields + child.items))
    else if child.Null? then Err(NameInNull)
    else if IsField(child) then Ok(acc.(fields := acc.fields + [child]))
    else Ok(acc.(description := acc.description + ToStr(child)))
  }

  /** The embed's loop, as a left fold from an empty description and field list. */
  function FoldChildren(children: seq<Value>): Result<EmbedBody, Error>
    decreases |children|
  {
    if children == [] then Ok(EmbedBody("", []))
    else
      match FoldChildren(children[..|children| - 1])
      case Err(e) => Err(e)
      case Ok(acc) => EmbedStep(acc, children[|children| - 1])
  }

  /** What one child adds to the description. */
  function DescriptionPart(c: Value): string {
    if IsText(c) then ToStr(c) else ""
  }

  /** What one child adds to the field list. */
  function FieldsPart(c: Value): seq<Value> {
    if c.Arr? then c.items else if IsField(c) then [c] else []
  }

  /** Reference: `String(child)` of every text child, in order. */
  function DescriptionOf(children: seq<Value>): string {
    if children == [] then "" else DescriptionPart(children[0]) + DescriptionOf(children[1..])
  }

  /** Reference: field children in order, with array children spread in place. */
  function FieldsOf(children: seq<Value>): seq<Value> {
    if children == [] then [] else FieldsPart(children[0]) + FieldsOf(children[1..])
  }

  /** The references unfold one child at a time from the front. */
  lemma ReferenceCons(c: Value, rest: seq<Value>)
    ensures DescriptionOf([c] + rest) == DescriptionPart(c) + DescriptionOf(rest)
    ensures FieldsOf([c] + rest) == FieldsPart(c) + FieldsOf(rest)
  {
    assert ([c] + rest)[0] == c && ([c] + rest)[1..] == rest;
  }

  lemma {:induction false} DescriptionOfSnoc(children: seq<Value>, c: Value)
    ensures DescriptionOf(children + [c]) == DescriptionOf(children) + DescriptionPart(c)
  {
    if children == [] {
      assert (children + [c])[1..] == [];
    } else {
      var tail := children[1..];
      assert (children + [c])[1..] == tail + [c];
      DescriptionOfSnoc(tail, c);
      calc {
        DescriptionOf(children + [c]);
        DescriptionPart(children[0]) + DescriptionOf(tail + [c]);
        DescriptionPart(children[0]) + (DescriptionOf(tail) + DescriptionPart(c));
        (DescriptionPart(children[0]) + DescriptionOf(tail)) + DescriptionPart(c);
      }
    }
  }

  lemma {:induction false} FieldsOfSnoc(children: seq<Value>, c: Value)
    ensures FieldsOf(children + [c]) == FieldsOf(children) + FieldsPart(c)
  {
    if children == [] {
      assert (children + [c])[1..] == [];
    } else {
      var tail := children[1..];
      assert (children + [c])[1..] == tail + [c];
      FieldsOfSnoc(tail, c);
      calc {
        FieldsOf(children + [c]);
        FieldsPart(children[0]) + FieldsOf(tail + [c]);
        FieldsPart(children[0]) + (FieldsOf(tail) + FieldsPart(c));
        (FieldsPart(children[0]) + FieldsOf(tail)) + FieldsPart(c);
      }
    }
  }

  /** The embed's loop throws exactly when some child is `null`, and otherwise
      yields the reference description and field list. */
  lemma {:induction false} FoldChildrenMeaning(children: seq<Value>)
    ensures FoldChildren(children).Err? <==> Null in children
    ensures FoldChildren(children).Err? ==> FoldChildren(children).error == NameInNull
    ensures FoldChildren(children).Ok?
            ==> FoldChildren(children).value == EmbedBody(DescriptionOf(children), FieldsOf(children))
    decreases |children|
  {
    if children != [] {
      var init := children[..|children| - 1];
      var last := children[|children| - 1];
      assert children == init + [last];
      FoldChildrenMeaning(init);
      DescriptionOfSnoc(init, last);
      FieldsOfSnoc(init, last);
      assert Null in children <==> Null in init || last == Null;
    }
  }

  /** `ElementBuilder.embed`: without a truthy `description`, fold the children
      into description and fields; a truthy footer is resolved by the footer
      rule; the colour argument is the `color` prop or `null`. */
  function BuildEmbed(props: map<string, Value>, children: seq<Value>): (r: Result<Value, Error>)
    ensures r.Err? <==> !Truthy(Prop(props, "description")) && Null in children
    ensures r.Err? ==> r.error == NameInNull
    ensures r.Ok? ==> r.value.Built? && r.value.kind == EmbedBuilder
    ensures r.Ok? ==> r.value.data.Keys == props.Keys + {"fields", "description", "color"}
    ensures r.Ok? && Truthy(Prop(props, "description")) ==>
      && r.value.data["description"] == props["description"]
      && r.value.data["fields"] == Arr([])
    ensures r.Ok? && !Truthy(Prop(props, "description")) ==>
      && r.value.data["description"] == Str(DescriptionOf(children))
      && r.value.data["fields"] == Arr(FieldsOf(children))
    ensures r.Ok? && Truthy(Prop(props, "footer")) ==>
      r.value.data["footer"] == BuildFooter(props["footer"], [])
    ensures r.Ok? && "footer" in props && !Truthy(props["footer"]) ==>
      r.value.data["footer"] == props["footer"]
    ensures r.Ok? ==> r.value.data["color"] == (if Truthy(Prop(props, "color")) then props["color"] else Null)
    ensures r.Ok? ==> forall k | k in props && k !in {"fields", "description", "footer", "color"} ::
                        r.value.data[k] == props[k]
  {
    FoldChildrenMeaning(children);
    var withFields := props["fields" := Arr([])];
    var folded: Result<map<string, Value>, Error> :=
      if Truthy(Prop(props, "description")) then Ok(withFields)
      else
        match FoldChildren(children)
        case Err(e) => Err(e)
        case Ok(body) => Ok(withFields["description" := Str(body.description)]["fields" := Arr(body.fields)]);
    match folded
    case Err(e) => Err(e)
    case Ok(p) =>
      var footer := Prop(p, "footer");
      var withFooter := if Truthy(footer) then p["footer" := BuildFooter(footer, [])] else p;
      var color := Prop(withFooter, "color");
      Ok(Built(EmbedBuilder, withFooter["color" := if Truthy(color) then color else Null]))
  }

  // ---------------------------------------------------------------- footer, field, emoji

  /** `ElementBuilder.footer`: a string is the text; otherwise the object's own
      keys are kept and `text` is its truthy `text` or the children joined. */
  function BuildFooter(props: Value, children: seq<Value>): (r: Value)
    ensures r.Obj? && "text" in r.props
    ensures props.Str? ==> r.props == map["text" := props]
    ensures !props.Str? ==> r.props.Keys == Spread(props).Keys + {"text"}
    ensures !props.Str? ==> forall k | k in Spread(props) && k != "text" :: r.props[k] == Spread(props)[k]
    ensures !props.Str? && Truthy(Get(props, "text")) ==> r.props["text"] == Get(props, "text")
    ensures !props.Str? && !Truthy(Get(props, "text")) ==> r.props["text"] == Str(Text(children))
  {
    JoinEmptySeparator(children);
    if props.Str? then Obj(map["text" := props])
    else
      var text := Get(props, "text");
      Obj(Spread(props)["text" := if Truthy(text) then text else Str(Join(children, ""))])
  }

  /** `ElementBuilder.field`: `name` and `inline` copied as they are (also when
      undefined), `value` the truthy `value` prop or the flattened children joined. */
  function BuildField(props: map<string, Value>, children: seq<Value>): (r: Value)
    ensures r.Obj? && r.props.Keys == {"name", "value", "inline"}
    ensures r.props["name"] == Prop(props, "name")
    ensures r.props["inline"] == Prop(props, "inline")
    ensures Truthy(Prop(props, "value")) ==> r.props["value"] == props["value"]
    ensures !Truthy(Prop(props, "value")) && NestedWithin(children, FlatDepth) ==>
      r.props["value"] == Str(Text(Leaves(children)))
  {
    JoinFlat(children, FlatDepth);
    var value := Prop(props, "value");
    Obj(map[
      "name" := Prop(props, "name"),
      "value" := if Truthy(value) then value else Str(Join(Flat(children, FlatDepth), "")),
      "inline" := Prop(props, "inline")])
  }

  // ---------------------------------------------------------------- containers

  /** The component list of `row`, `select` and `modal`: the first child when
      it is an array, otherwise all children. */
  function ComponentsOf(children: seq<Value>): (r: seq<Value>)
    ensures |children| > 0 && children[0].Arr? ==> r == children[0].items
    ensures |children| == 0 || !children[0].Arr? ==> r == children
  {
    if |children| > 0 && children[0].Arr? then children[0].items else children
  }

  /** `ElementBuilder.row`: the props with `components` set to the component list. */
  function BuildRow(props: map<string, Value>, children: seq<Value>): (r: Value)
    ensures r.Built? && r.kind == ActionRowBuilder
    ensures r.data.Keys == props.Keys + {"components"}
    ensures r.data["components"] == Arr(ComponentsOf(children))
    ensures forall k | k in props && k != "components" :: r.data[k] == props[k]
  {
    Built(ActionRowBuilder, props["components" := Arr(ComponentsOf(children))])
  }

  // ---------------------------------------------------------------- button

  /** A button's style: the truthy `style` prop, else Link with a truthy `url`, else Primary. */
  function ButtonStyleOf(props: map<string, Value>): (r: Value)
    ensures Truthy(Prop(props, "style")) ==> r == props["style"]
    ensures !Truthy(Prop(props, "style")) && Truthy(Prop(props, "url")) ==> r == Num(LinkStyle)
    ensures !Truthy(Prop(props, "style")) && !Truthy(Prop(props, "url")) ==> r == Num(PrimaryStyle)
  {
    var style := Prop(props, "style");
    if Truthy(style) then style else if Truthy(Prop(props, "url")) then Num(LinkStyle) else Num(PrimaryStyle)
  }

  /** A button's label: the truthy `label` prop, else the flattened children joined. */
  function ButtonLabelOf(props: map<string, Value>, children: seq<Value>): (r: Value)
    ensures Truthy(Prop(props, "label")) ==> r == props["label"]
    ensures !Truthy(Prop(props, "label")) && NestedWithin(children, FlatDepth) ==>
      r == Str(Text(Leaves(children)))
  {
    JoinFlat(children, FlatDepth);
    var given := Prop(props, "label");
    if Truthy(given) then given else Str(Join(Flat(children, FlatDepth), ""))
  }

  /** A button wires a click handler exactly when `onClick` and `customId` are both truthy. */
  predicate HasClickHandler(props: map<string, Value>) {
    Truthy(Prop(props, "onClick")) && Truthy(Prop(props, "customId"))
  }

  /** `ElementBuilder.button`: throws when a click handler meets a `url`;
      otherwise registers the click handler, if any, under `customId`. */
  function BuildButton(props: map<string, Value>, children: seq<Value>, reg: Handlers): (r: Resolved)
    ensures r.out.Err? <==> HasClickHandler(props) && Truthy(Prop(props, "url"))
    ensures r.out.Err? ==> r.out.error == UrlWithHandler && r.handlers == reg
    ensures !HasClickHandler(props) ==> r.handlers == reg
    ensures r.out.Ok? && HasClickHandler(props) ==>
      r.handlers == Register(reg, props["customId"], Listener(props["onClick"], Button, Prop(props, "once")))
    ensures r.out.Ok? ==>
      && r.out.value.Built? && r.out.value.kind == ButtonBuilder
      && r.out.value.data.Keys == props.Keys + {"style", "label"}
      && r.out.value.data["style"] == ButtonStyleOf(props)
      && r.out.value.data["label"] == ButtonLabelOf(props, children)
      && forall k | k in props && k !in {"style", "label"} :: r.out.value.data[k] == props[k]
  {
    var button := Built(ButtonBuilder, props["style" := ButtonStyleOf(props)]["label" := ButtonLabelOf(props, children)]);
    if HasClickHandler(props) then
      if Truthy(Prop(props, "url")) then Resolved(Err(UrlWithHandler), reg)
      else Resolved(Ok(button), Register(reg, props["customId"], Listener(props["onClick"], Button, Prop(props, "once"))))
    else Resolved(Ok(button), reg)
  }

  // ---------------------------------------------------------------- select, option

  /** The options a select menu already carries in its `options` prop. */
  function PropOptions(props: map<string, Value>): seq<Value> {
    var options := Prop(props, "options");
    if options.Arr? then options.items else []
  }

  /** A select menu wires a change handler exactly when `onChange` and `customId` are both truthy. */
  predicate HasChangeHandler(props: map<string, Value>) {
    Truthy(Prop(props, "onChange")) && Truthy(Prop(props, "customId"))
  }

  /** `ElementBuilder.select`: the component list is appended to the menu's
      options; a change handler, if any, is registered under `customId`. */
  function BuildSelect(props: map<string, Value>, children: seq<Value>, reg: Handlers): (r: Resolved)
    ensures r.out.Ok? && r.out.value.Built? && r.out.value.kind == SelectMenuBuilder
    ensures r.out.value.data.Keys == props.Keys + {"options"}
    ensures r.out.value.data["options"] == Arr(PropOptions(props) + ComponentsOf(children))
    ensures forall k | k in props && k != "options" :: r.out.value.data[k] == props[k]
    ensures !HasChangeHandler(props) ==> r.handlers == reg
    ensures HasChangeHandler(props) ==>
      r.handlers == Register(reg, props["customId"], Listener(props["onChange"], SelectMenu, Prop(props, "once")))
  {
    var select := Built(SelectMenuBuilder, props["options" := Arr(PropOptions(props) + ComponentsOf(children))]);
    if HasChangeHandler(props) then
      Resolved(Ok(select), Register(reg, props["customId"], Listener(props["onChange"], SelectMenu, Prop(props, "once"))))
    else Resolved(Ok(select), reg)
  }

  // ---------------------------------------------------------------- modal, input

  /** `ElementBuilder.modal`: a truthy `onSubmit` is registered under whatever
      `customId` holds, even `undefined`; the payload keeps only `customId`,
      `title` and the component list. */
  function BuildModal(props: map<string, Value>, children: seq<Value>, reg: Handlers): (r: Resolved)
    ensures r.out.Ok? && r.out.value.Built? && r.out.value.kind == ModalBuilder
    ensures r.out.value.data == map[
      "customId" := Prop(props, "customId"),
      "title" := Prop(props, "title"),
      "components" := Arr(ComponentsOf(children))]
    ensures !Truthy(Prop(props, "onSubmit")) ==> r.handlers == reg
    ensures Truthy(Prop(props, "onSubmit")) ==>
      r.handlers == Register(reg, Prop(props, "customId"), Listener(props["onSubmit"], Modal, Prop(props, "once")))
  {
    var modal := Built(ModalBuilder, map[
      "customId" := Prop(props, "customId"),
      "title" := Prop(props, "title"),
      "components" := Arr(ComponentsOf(children))]);
    var onSubmit := Prop(props, "onSubmit");
    if Truthy(onSubmit) then
      Resolved(Ok(modal), Register(reg, Prop(props, "customId"), Listener(onSubmit, Modal, Prop(props, "once"))))
    else Resolved(Ok(modal), reg)
  }

  /** `ElementBuilder.input`: the props with the component type fixed to text input. */
  function BuildInput(props: map<string, Value>): (r: Value)
    ensures r.Built? && r.kind == TextInputBuilder
    ensures r.data.Keys == props.Keys + {"type"}
    ensures r.data["type"] == Num(TextInputType)
    ensures forall k | k in props && k != "type" :: r.data[k] == props[k]
  {
    Built(TextInputBuilder, props["type" := Num(TextInputType)])
  }

  // ---------------------------------------------------------------- dispatch

  /** `ElementBuilder[tag](props, children)`.  Only `embed` and `button` can
      throw, only `button`, `select` and `modal` touch the registry, and
      resolution never removes a handler. */
  function ElementBuilder(tag: Tag, props: map<string, Value>, children: seq<Value>, reg: Handlers): (r: Resolved)
    ensures tag == MessageTag ==> r == Resolved(Ok(Obj(props)), reg)
    ensures tag == BrTag ==> r == Resolved(Ok(Str("\n")), reg)
    ensures tag == EmojiTag ==> r == Resolved(Ok(Prop(props, "emoji")), reg)
    ensures tag == OptionTag ==> r == Resolved(Ok(Built(SelectMenuOptionBuilder, props)), reg)
    ensures tag == EmbedTag ==> r == Resolved(BuildEmbed(props, children), reg)
    ensures tag == FooterTag ==> r == Resolved(Ok(BuildFooter(Obj(props), children)), reg)
    ensures tag == FieldTag ==> r == Resolved(Ok(BuildField(props, children)), reg)
    ensures tag == RowTag ==> r == Resolved(Ok(BuildRow(props, children)), reg)
    ensures tag == ButtonTag ==> r == BuildButton(props, children, reg)
    ensures tag == SelectTag ==> r == BuildSelect(props, children, reg)
    ensures tag == ModalTag ==> r == BuildModal(props, children, reg)
    ensures tag == InputTag ==> r == Resolved(Ok(BuildInput(props)), reg)
    ensures r.out.Err? ==> tag in {EmbedTag, ButtonTag} && r.handlers == reg
    ensures tag !in {ButtonTag, SelectTag, ModalTag} ==> r.handlers == reg
    ensures reg.Keys <= r.handlers.Keys
    ensures forall k | k in r.handlers && (k !in reg || r.handlers[k] != reg[k]) ::
      k == Prop(props, "customId")
  {
    match tag
    case MessageTag => Resolved(Ok(Obj(props)), reg)
    case BrTag => Resolved(Ok(Str("\n")), reg)
    case EmbedTag => Resolved(BuildEmbed(props, children), reg)
    case FooterTag => Resolved(Ok(BuildFooter(Obj(props), children)), reg)
    case FieldTag => Resolved(Ok(BuildField(props, children)), reg)
    case EmojiTag => Resolved(Ok(Prop(props, "emoji")), reg)
    case RowTag => Resolved(Ok(BuildRow(props, children)), reg)
    case ButtonTag => BuildButton(props, children, reg)
    case SelectTag => BuildSelect(props, children, reg)
    case OptionTag => Resolved(Ok(Built(SelectMenuOptionBuilder, props)), reg)
    case ModalTag => BuildModal(props, children, reg)
    case InputTag => Resolved(Ok(BuildInput(props)), reg)
  }

  /** What `createElement` is handed as its tag: an intrinsic tag name, a
      `DiscordStateComponent` class (with the initial state its own constructor
      sets as a function of the props, or `None` when it sets none), another class with a `render` method, a plain
      function component, or the exported `Fragment`.  Render and call results
      are opaque and may register handlers of their own. */
  datatype TagRef =
    | Intrinsic(name: string)
    | StateClass(classId: nat, initialState: Option<map<string, Value> -> map<string, Value>>)
    | RenderClass(render: (map<string, Value>, Handlers) -> Resolved)
    | Plain(call: (map<string, Value>, seq<Value>, Handlers) -> Resolved)
    | FragmentTag

  /** The props `createElement` passes on: a copy of the given props with
      `children` always set to the positional children. */
  function MergeChildren(props: Value, children: seq<Value>): (m: map<string, Value>)
    ensures m.Keys == Spread(props).Keys + {"children"}
    ensures m["children"] == Arr(children)
    ensures forall k | k in Spread(props) && k != "children" :: m[k] == Spread(props)[k]
  {
    Spread(props)["children" := Arr(children)]
  }

  /** The exported `Fragment`: its children, unchanged. */
  function Fragment(props: Value, children: seq<Value>): (r: Value)
    ensures r.Arr? && r.items == children
  {
    Arr(children)
  }

  /** `createElement(tag, props, ...children)`. */
  function CreateElement(tag: TagRef, props: Value, children: seq<Value>, reg: Handlers): (r: Resolved)
    ensures tag.Intrinsic? && ParseTag(tag.name).None? ==>
      r.out == Err(NotAFunction(tag.name)) && r.handlers == reg
    ensures tag.Intrinsic? && ParseTag(tag.name).Some? ==>
      r == ElementBuilder(ParseTag(tag.name).value, MergeChildren(props, children), children, reg)
    ensures tag.StateClass? ==>
      && r.handlers == reg
      && r.out.Ok? && r.out.value.Instance?
      && r.out.value.component.classId == tag.classId
      && r.out.value.component.props == MergeChildren(props, children)
    ensures tag.StateClass? && tag.initialState.None? ==>
      r.out == Ok(Instance(NewStateComponent(tag.classId, MergeChildren(props, children))))
    ensures tag.FragmentTag? ==> r == Resolved(Ok(Arr(children)), reg)
  {
    var merged := MergeChildren(props, children);
    match tag
    case Intrinsic(name) =>
      (match ParseTag(name)
       case None => Resolved(Err(NotAFunction(name)), reg)
       case Some(t) => ElementBuilder(t, merged, children, reg))
    case StateClass(classId, initialState) =>
      var base := NewStateComponent(classId, merged);
      (match initialState
       case None => Resolved(Ok(Instance(base)), reg)
       case Some(init) => Resolved(Ok(Instance(base.(state := init(merged)))), reg))
    case RenderClass(render) => render(merged, reg)
    case Plain(call) => call(merged, children, reg)
    case FragmentTag => Resolved(Ok(Fragment(Null, children)), reg)
  }
}

=== FILE: registry.dfy ===
/**
 The process-wide interaction registry (`interactionHandlers`, a `Map` from
 custom id to `Listener`) and the client's `interactionCreate` dispatcher with
 its once-expiry rule.  The registry is threaded through the model as a value
 instead of being global.
 */
module Registry {
  import opened Wrappers
  import opened Values

  /** The kinds of interactive element a handler can be registered for. */
  datatype InteractionType = Button | SelectMenu | Modal

  /** A registered handler: the function, the element kind that registered it,
      and the element's `once` prop exactly as given (usually a boolean or
      `undefined`). */
  datatype Listener = Listener(handler: Value, kind: InteractionType, once: Value)

  /** The registry.  The JavaScript `Map` is keyed by whatever value the
      element's `customId` prop holds, so keys are values; inbound events look
      up string keys. */
  type Handlers = map<Value, Listener>

  /** `interactionHandlers.set(key, listener)`: insert, overwriting any earlier entry. */
  function Register(reg: Handlers, key: Value, listener: Listener): (r: Handlers)
    ensures key in r && r[key] == listener
    ensures r.Keys == reg.Keys + {key}
    ensures forall k | k in reg && k != key :: r[k] == reg[k]
  {
    reg[key := listener]
  }

  /** The result of `Map.prototype.delete`: whether an entry was removed, and the registry after. */
  datatype Deletion = Deletion(removed: bool, handlers: Handlers)

  /** `interactionHandlers.delete(key)`. */
  function Delete(reg: Handlers, key: Value): (r: Deletion)
    ensures r.removed <==> key in reg
    ensures r.handlers.Keys == reg.Keys - {key}
    ensures forall k | k in r.handlers :: r.handlers[k] == reg[k]
  {
    Deletion(key in reg, reg - {key})
  }

  /** The exported `deleteHandler(key)`. */
  function DeleteHandler(reg: Handlers, key: string): (r: Deletion)
    ensures r.removed <==> Str(key) in reg
    ensures r.handlers.Keys == reg.Keys - {Str(key)}
    ensures forall k | k in r.handlers :: r.handlers[k] == reg[k]
  {
    Delete(reg, Str(key))
  }

  /** Deleting the same key twice: the second call never reports a removal
      and changes nothing. */
  lemma DeleteHandlerTwice(reg: Handlers, key: string)
    ensures !DeleteHandler(DeleteHandler(reg, key).handlers, key).removed
    ensures DeleteHandler(DeleteHandler(reg, key).handlers, key).handlers == DeleteHandler(reg, key).handlers
  {
  }

  /** The kinds a client expires after one firing unless told otherwise: modals
      by default, plus any kinds given in the client options. */
  function OnceKinds(configured: Option<seq<InteractionType>>): (s: seq<InteractionType>)
    ensures |s| > 0 && s[0] == Modal
    ensures configured.None? ==> s == [Modal]
    ensures configured.Some? ==> s[1..] == configured.value
    ensures forall t :: t in s <==> t == Modal || (configured.Some? && t in configured.value)
  {
    match configured
    case None => [Modal]
    case Some(extra) => [Modal] + extra
  }

  /** Whether the dispatcher removes `l` after it has fired once. */
  predicate ExpiresAfterFiring(l: Listener, onceKinds: seq<InteractionType>) {
    (l.kind in onceKinds && l.once != Bool(false)) || Truthy(l.once)
  }

  /** An inbound interaction; `customId` is absent for events that are not
      routed by custom id. */
  datatype Interaction = Interaction(customId: Option<string>)

  /** What a handler may do to the registry while it runs: call the `off`
      callback it was given, call `deleteHandler`, resolve interactive
      elements that register handlers, or throw synchronously, which ends it. */
  datatype HandlerAction =
    | Off
    | DeleteKey(key: Value)
    | RegisterKey(key: Value, listener: Listener)
    | Throw

  /** One action's effect; `off` deletes the key being dispatched. */
  function Apply(reg: Handlers, id: Value, a: HandlerAction): Handlers {
    match a
    case Off => Delete(reg, id).handlers
    case DeleteKey(k) => Delete(reg, k).handlers
    case RegisterKey(k, l) => Register(reg, k, l)
    case Throw => reg
  }

  /** The registry after the handler has performed `actions` in order; a
      throw ends the handler, so nothing after it happens. */
  function RunHandler(reg: Handlers, id: Value, actions: seq<HandlerAction>): Handlers
    decreases |actions|
  {
    if actions == [] || actions[0].Throw? then reg
    else RunHandler(Apply(reg, id, actions[0]), id, actions[1..])
  }

  /** Everything after a throw is skipped: the handler's effect is that of the
      actions before the first throw. */
  lemma {:induction false} RunHandlerThrow(reg: Handlers, id: Value, before: seq<HandlerAction>, after: seq<HandlerAction>)
    requires Throw !in before
    ensures RunHandler(reg, id, before + [Throw] + after) == RunHandler(reg, id, before)
    decreases |before|
  {
    if before == [] {
      assert before + [Throw] + after == [Throw] + after;
    } else {
      assert (before + [Throw] + after)[0] == before[0];
      assert (before + [Throw] + after)[1..] == before[1..] + [Throw] + after;
      assert Throw !in before[1..] by {
        assert forall a | a in before[1..] :: a in before;
      }
      RunHandlerThrow(Apply(reg, id, before[0]), id, before[1..], after);
    }
  }

  /** `Client.defaultInteractionCreateListener`: look the event's custom id up,
      run its handler, then expire the entry if the listener that fired is
      once-only.  The once decision uses the listener found before the handler
      ran; a handler that throws propagates out of the listener before that
      decision, so nothing is expired. */
  function Dispatch(reg: Handlers, onceKinds: seq<InteractionType>, event: Interaction, actions: seq<HandlerAction>): (r: Handlers)
    ensures event.customId.None? ==> r == reg
    ensures event.customId.Some? && Str(event.customId.value) !in reg ==> r == reg
    ensures event.customId.Some? && Str(event.customId.value) in reg && Throw !in actions
            && ExpiresAfterFiring(reg[Str(event.customId.value)], onceKinds)
            ==> Str(event.customId.value) !in r
  {
    match event.customId
    case None => reg
    case Some(id) =>
      if Str(id) !in reg then reg
      else
        var fired := reg[Str(id)];
        var after := RunHandler(reg, Str(id), actions);
        if Throw !in actions && ExpiresAfterFiring(fired, onceKinds) then Delete(after, Str(id)).handlers else after
  }

  /** The once rule, case by case: `once: false` always keeps the listener, a
      truthy `once` always expires it, and any other `once` (`undefined`,
      `null`, `0`, `""`) leaves the decision to the client's once kinds. */
  lemma OnceRule(l: Listener, onceKinds: seq<InteractionType>)
    ensures l.once == Bool(false) ==> !ExpiresAfterFiring(l, onceKinds)
    ensures Truthy(l.once) ==> ExpiresAfterFiring(l, onceKinds)
    ensures !Truthy(l.once) && l.once != Bool(false) ==> (ExpiresAfterFiring(l, onceKinds) <==> l.kind in onceKinds)
  {
  }

  /** A handler that throws leaves the registry as it was when the throw
      happened, even when the fired listener is once-only. */
  lemma DispatchThrowing(reg: Handlers, onceKinds: seq<InteractionType>, id: string, before: seq<HandlerAction>, after: seq<HandlerAction>)
    requires Str(id) in reg
    requires Throw !in before
    ensures Dispatch(reg, onceKinds, Interaction(Some(id)), before + [Throw] + after) == RunHandler(reg, Str(id), before)
  {
    assert Throw in before + [Throw] + after;
    RunHandlerThrow(reg, Str(id), before, after);
  }

  /** With the default client, a modal whose submit handler throws at once
      stays registered, unchanged. */
  lemma ThrowingModalStays(reg: Handlers, id: string, handler: Value, after: seq<HandlerAction>)
    ensures var l := Listener(handler, Modal, Undefined);
      var r := Dispatch(reg[Str(id) := l], OnceKinds(None), Interaction(Some(id)), [Throw] + after);
      Str(id) in r && r[Str(id)] == l
  {
    DispatchThrowing(reg[Str(id) := Listener(handler, Modal, Undefined)], OnceKinds(None), id, [], after);
    assert [] + [Throw] + after == [Throw] + after;
  }

  /** A handler that only calls `off` (any number of times, possibly none)
      removes exactly the dispatched key, and only if it called `off` at all. */
  lemma {:induction false} RunOffOnly(reg: Handlers, id: Value, actions: seq<HandlerAction>)
    requires forall i | 0 <= i < |actions| :: actions[i].Off?
    ensures actions == [] ==> RunHandler(reg, id, actions) == reg
    ensures actions != [] ==> RunHandler(reg, id, actions) == reg - {id}
    decreases |actions|
  {
    if actions != [] {
      assert actions[0].Off?;
      var rest := actions[1..];
      assert forall i | 0 <= i < |rest| :: rest[i].Off? by {
        forall i | 0 <= i < |rest| ensures rest[i].Off? {
          assert rest[i] == actions[i + 1];
        }
      }
      RunOffOnly(reg - {id}, id, rest);
      assert (reg - {id}) - {id} == reg - {id};
    }
  }

  /** The dispatch rule for a handler that may or may not call `off`: the
      dispatched key is gone afterwards exactly when the handler called `off`
      or the fired listener is once-only; every other entry is untouched. */
  lemma DispatchWithOff(reg: Handlers, onceKinds: seq<InteractionType>, id: string, actions: seq<HandlerAction>)
    requires Str(id) in reg
    requires forall i | 0 <= i < |actions| :: actions[i].Off?
    ensures var r := Dispatch(reg, onceKinds, Interaction(Some(id)), actions);
      && (Str(id) !in r <==> actions != [] || ExpiresAfterFiring(reg[Str(id)], onceKinds))
      && (Str(id) in r ==> r[Str(id)] == reg[Str(id)])
      && r.Keys - {Str(id)} == reg.Keys - {Str(id)}
      && forall k | k in r && k in reg && k != Str(id) :: r[k] == reg[k]
  {
    RunOffOnly(reg, Str(id), actions);
  }

  /** Whatever the handler did, entries other than the dispatched key end up
      exactly as the handler left them. */
  lemma DispatchOtherKeys(reg: Handlers, onceKinds: seq<InteractionType>, id: string, actions: seq<HandlerAction>, k: Value)
    requires Str(id) in reg
    requires k != Str(id)
    ensures var r := Dispatch(reg, onceKinds, Interaction(Some(id)), actions);
      var after := RunHandler(reg, Str(id), actions);
      (k in r <==> k in after) && (k in r ==> r[k] == after[k])
  {
  }

  /** With the default once kinds, a modal listener without `once` expires after one firing. */
  lemma DefaultModalExpires(reg: Handlers, id: string, handler: Value)
    ensures Str(id) !in Dispatch(reg[Str(id) := Listener(handler, Modal, Undefined)], OnceKinds(None), Interaction(Some(id)), [])
  {
  }

  /** With the default once kinds, a button listener without `once` survives a firing that does not call `off`. */
  lemma DefaultButtonStays(reg: Handlers, id: string, handler: Value)
    ensures var l := Listener(handler, Button, Undefined);
      var r := Dispatch(reg[Str(id) := l], OnceKinds(None), Interaction(Some(id)), []);
      Str(id) in r && r[Str(id)] == l
  {
  }

  /** A button listener registered with `once: true` expires after one firing. */
  lemma OnceTrueButtonExpires(reg: Handlers, id: string, handler: Value)
    ensures Str(id) !in Dispatch(reg[Str(id) := Listener(handler, Button, Bool(true))], OnceKinds(None), Interaction(Some(id)), [])
  {
  }

  /** `once: false` overrides the modal default. */
  lemma OnceFalseModalStays(reg: Handlers, id: string, handler: Value)
    ensures Str(id) in Dispatch(reg[Str(id) := Listener(handler, Modal, Bool(false))], OnceKinds(None), Interaction(Some(id)), [])
  {
  }

  /** Adding a kind to the client's once kinds makes its listeners without `once` expire. */
  lemma ConfiguredButtonExpires(reg: Handlers, id: string, handler: Value)
    ensures Str(id) !in Dispatch(reg[Str(id) := Listener(handler, Button, Undefined)], OnceKinds(Some([Button])), Interaction(Some(id)), [])
  {
  }
}

=== FILE: scenarios.dfy ===
/**
 Properties of whole elements: concrete resolutions, the shared component-list
 rule, and the interplay of resolution with the dispatcher.
 */
module Scenarios {
  import opened Wrappers
  import opened Values
  import opened Registry
  import opened Elements

  /** `<field name="A">x{"y"}</field>` resolves to name "A", value "xy" and an undefined `inline`. */
  lemma FieldFromChildren(reg: Handlers)
    ensures CreateElement(Intrinsic("field"), Obj(map["name" := Str("A")]), [Str("x"), Str("y")], reg)
         == Resolved(Ok(Obj(map["name" := Str("A"), "value" := Str("xy"), "inline" := Undefined])), reg)
  {
    JoinFlatStrings([Str("x"), Str("y")], FlatDepth);
    assert Concat([Str("x"), Str("y")]) == "xy";
    var merged := MergeChildren(Obj(map["name" := Str("A")]), [Str("x"), Str("y")]);
    assert Prop(merged, "value") == Undefined;
  }

  /** A string footer is the text; an empty footer object takes its children joined. */
  lemma FooterScenarios()
    ensures BuildFooter(Str("hi"), []) == Obj(map["text" := Str("hi")])
    ensures BuildFooter(Obj(map[]), [Str("a"), Str("b")]) == Obj(map["text" := Str("ab")])
  {
    TextOfStrings([Str("a"), Str("b")]);
    assert Concat([Str("a"), Str("b")]) == "ab";
    assert map[]["text" := Str("ab")] == map["text" := Str("ab")];
  }

  /** `footer` joins its children without flattening them, unlike `field`:
      a nested array is rendered with commas in a footer and spliced in a field. */
  lemma FooterDoesNotFlatten()
    ensures BuildFooter(Obj(map[]), [Arr([Str("a"), Str("b")])]).props["text"] == Str("a,b")
    ensures BuildField(map[], [Arr([Str("a"), Str("b")])]).props["value"] == Str("ab")
  {
    var inner := [Str("a"), Str("b")];
    assert Join(inner, ",") == "a,b";
    assert ToStr(Arr(inner)) == "a,b";
    assert Text([Arr(inner)]) == "a,b";
    assert NestedWithin(inner, FlatDepth - 1);
    assert NestedWithin([Arr(inner)], FlatDepth);
    assert Leaves(inner) == inner;
    assert Leaves([Arr(inner)]) == inner;
    TextOfStrings(inner);
  }

  /** The button's validity rule on its three interesting prop combinations. */
  lemma ButtonValidity(reg: Handlers, onClick: Value, id: string, url: string)
    requires Truthy(onClick) && id != "" && url != ""
    ensures var r := BuildButton(map["url" := Str(url)], [], reg);
      r.out.Ok? && r.handlers == reg
    ensures var r := BuildButton(map["onClick" := onClick, "customId" := Str(id)], [], reg);
      r.out.Ok? && r.handlers == reg[Str(id) := Listener(onClick, Button, Undefined)]
    ensures var r := BuildButton(map["onClick" := onClick, "customId" := Str(id), "url" := Str(url)], [], reg);
      r.out == Err(UrlWithHandler) && r.handlers == reg
  {
  }

  /** A link button without a style gets the Link style; a plain one gets Primary. */
  lemma ButtonDefaultStyles(url: string)
    requires url != ""
    ensures ButtonStyleOf(map["url" := Str(url)]) == Num(LinkStyle)
    ensures ButtonStyleOf(map[]) == Num(PrimaryStyle)
  {
  }

  /** `row`, `select` and `modal` build their component lists by the same rule. */
  lemma SharedComponentRule(props: map<string, Value>, children: seq<Value>, reg: Handlers)
    ensures var list := Arr(ComponentsOf(children));
      && BuildRow(props, children).data["components"] == list
      && BuildModal(props, children, reg).out.value.data["components"] == list
      && BuildSelect(map[], children, reg).out.value.data["options"] == list
  {
  }

  /** A button without a click handler resolves to a button payload and registers nothing. */
  lemma PlainButtonResolves(props: Value, reg: Handlers)
    requires !Truthy(Get(props, "onClick"))
    ensures var b := CreateElement(Intrinsic("button"), props, [], reg);
      b.out.Ok? && b.out.value.Built? && b.out.value.kind == ButtonBuilder && b.handlers == reg
  {
    var merged := MergeChildren(props, []);
    assert Prop(merged, "onClick") == Get(props, "onClick");
    assert !HasClickHandler(merged);
    assert ParseTag("button") == Some(ButtonTag);
  }

  /** A row whose first child is not an array lists all its children as components. */
  lemma RowOfComponents(children: seq<Value>, reg: Handlers)
    requires |children| > 0 && !children[0].Arr?
    ensures var row := CreateElement(Intrinsic("row"), Null, children, reg);
      row.out.Ok? && row.out.value.Built? && row.out.value.data["components"] == Arr(children)
  {
    assert ParseTag("row") == Some(RowTag);
    var merged := MergeChildren(Null, children);
    var row := CreateElement(Intrinsic("row"), Null, children, reg);
    assert row == ElementBuilder(RowTag, merged, children, reg);
    assert row.out == Ok(BuildRow(merged, children));
  }

  /** A button that resolves, with or without a click handler, is a button payload. */
  lemma ResolvedButtonIsBuilt(props: Value, reg: Handlers)
    ensures var b := CreateElement(Intrinsic("button"), props, [], reg);
      b.out.Ok? ==> b.out.value.Built? && b.out.value.kind == ButtonBuilder
  {
    assert ParseTag("button") == Some(ButtonTag);
    var merged := MergeChildren(props, []);
    assert CreateElement(Intrinsic("button"), props, [], reg) == BuildButton(merged, [], reg);
  }

  /** Whenever two buttons resolve, a row of them lists exactly those two
      buttons, in order, whether or not they registered click handlers. */
  lemma RowOfTwoButtons(reg: Handlers, first: Value, second: Value)
    ensures var b1 := CreateElement(Intrinsic("button"), first, [], reg);
      var b2 := CreateElement(Intrinsic("button"), second, [], b1.handlers);
      b1.out.Ok? && b2.out.Ok? ==>
        var row := CreateElement(Intrinsic("row"), Null, [b1.out.value, b2.out.value], b2.handlers);
        row.out.Ok? && row.out.value.data["components"] == Arr([b1.out.value, b2.out.value])
  {
    var b1 := CreateElement(Intrinsic("button"), first, [], reg);
    ResolvedButtonIsBuilt(first, reg);
    var b2 := CreateElement(Intrinsic("button"), second, [], b1.handlers);
    ResolvedButtonIsBuilt(second, b1.handlers);
    if b1.out.Ok? && b2.out.Ok? {
      RowOfComponents([b1.out.value, b2.out.value], b2.handlers);
    }
  }

  /** An explicit description suppresses the folding: the field list stays empty. */
  lemma EmbedWithDescription(children: seq<Value>)
    ensures var r := BuildEmbed(map["description" := Str("d")], children);
      r.Ok? && r.value.data["description"] == Str("d") && r.value.data["fields"] == Arr([])
  {
  }

  /** The reference description and fields of a mixed child list. */
  lemma MixedChildrenReference(field: Value)
    requires field == Obj(map["name" := Str("n")])
    ensures DescriptionOf([Str("Hello "), field, Num(4), Arr([field])]) == "Hello 4"
    ensures FieldsOf([Str("Hello "), field, Num(4), Arr([field])]) == [field, field]
  {
    assert IsField(field);
    assert NatToString(4) == "4";
    ReferenceCons(Arr([field]), []);
    ReferenceCons(Num(4), [Arr([field])]);
    ReferenceCons(field, [Num(4), Arr([field])]);
    ReferenceCons(Str("Hello "), [field, Num(4), Arr([field])]);
    assert [Str("Hello ")] + [field, Num(4), Arr([field])] == [Str("Hello "), field, Num(4), Arr([field])];
  }

  /** Without a description, text children are concatenated and field children collected. */
  lemma EmbedFoldsChildren(field: Value)
    requires field == Obj(map["name" := Str("n")])
    ensures var r := BuildEmbed(map[], [Str("Hello "), field, Num(4), Arr([field])]);
      r.Ok? && r.value.data["description"] == Str("Hello 4")
      && r.value.data["fields"] == Arr([field, field])
  {
    MixedChildrenReference(field);
    assert Null !in [Str("Hello "), field, Num(4), Arr([field])];
  }

  /** A `null` child of an embed without description throws. */
  lemma EmbedNullChild(reg: Handlers)
    ensures CreateElement(Intrinsic("embed"), Null, [Str("a"), Null], reg) == Resolved(Err(NameInNull), reg)
  {
  }

  /** `createElement` replaces a `children` prop with the positional children. */
  lemma ChildrenPropReplaced(reg: Handlers)
    ensures CreateElement(Intrinsic("message"), Obj(map["children" := Str("x")]), [Str("y")], reg)
         == Resolved(Ok(Obj(map["children" := Arr([Str("y")])])), reg)
  {
    assert MergeChildren(Obj(map["children" := Str("x")]), [Str("y")]) == map["children" := Arr([Str("y")])];
  }

  /** A tag without an `ElementBuilder` entry throws instead of resolving. */
  lemma UnknownTagThrows(reg: Handlers)
    ensures CreateElement(Intrinsic("div"), Null, [], reg) == Resolved(Err(NotAFunction("div")), reg)
  {
  }

  /** A modal with `onSubmit` but no `customId` registers its handler under `undefined`. */
  lemma ModalWithoutCustomId(reg: Handlers, onSubmit: Value)
    requires Truthy(onSubmit)
    ensures var r := BuildModal(map["onSubmit" := onSubmit], [], reg);
      Undefined in r.handlers && r.handlers[Undefined] == Listener(onSubmit, Modal, Undefined)
  {
  }

  /** End to end with the default client: a clicked button without `once` stays registered. */
  lemma ButtonSurvivesClick(reg: Handlers, handler: Value, id: string)
    requires Truthy(handler) && id != ""
    ensures var b := CreateElement(Intrinsic("button"), Obj(map["onClick" := handler, "customId" := Str(id)]), [], reg);
      b.out.Ok? && Str(id) in Dispatch(b.handlers, OnceKinds(None), Interaction(Some(id)), [])
  {
    var props := MergeChildren(Obj(map["onClick" := handler, "customId" := Str(id)]), []);
    assert HasClickHandler(props) && !Truthy(Prop(props, "url"));
    var b := BuildButton(props, [], reg);
    assert b.handlers[Str(id)] == Listener(handler, Button, Undefined);
    assert !ExpiresAfterFiring(b.handlers[Str(id)], OnceKinds(None));
  }

  /** End to end with the default client: a submitted modal without `once` is gone afterwards. */
  lemma ModalExpiresOnSubmit(reg: Handlers, handler: Value, id: string)
    requires Truthy(handler)
    ensures var m := CreateElement(Intrinsic("modal"), Obj(map["onSubmit" := handler, "customId" := Str(id)]), [], reg);
      m.out.Ok? && Str(id) in m.handlers
      && Str(id) !in Dispatch(m.handlers, OnceKinds(None), Interaction(Some(id)), [])
  {
    var props := MergeChildren(Obj(map["onSubmit" := handler, "customId" := Str(id)]), []);
    assert Prop(props, "customId") == Str(id) && Truthy(Prop(props, "onSubmit"));
    var m := BuildModal(props, [], reg);
    assert m.handlers[Str(id)] == Listener(handler, Modal, Undefined);
    assert ExpiresAfterFiring(m.handlers[Str(id)], OnceKinds(None));
  }
}

=== FILE: state.dfy ===
/**
 The state side of `DiscordStateComponent`: construction with empty state and
 the shallow merge `setState` performs before re-rendering.  Rendering and
 delivering the result to the platform are not part of this module.
 */
module State {
  import opened Values

  /** The `DiscordStateComponent` constructor: props stored, state empty. */
  function NewStateComponent(classId: nat, props: map<string, Value>): (c: StateComponent)
    ensures c.classId == classId && c.props == props
    ensures c.state == map[]
  {
    StateComponent(classId, props, map[])
  }

  /** `{ ...current, ...partial }`: every key of either, the partial's value winning. */
  function Merge(current: map<string, Value>, partial: Value): (r: map<string, Value>)
    ensures r.Keys == current.Keys + Spread(partial).Keys
    ensures forall k | k in Spread(partial) :: r[k] == Spread(partial)[k]
    ensures forall k | k in current && k !in Spread(partial) :: r[k] == current[k]
  {
    current + Spread(partial)
  }

  /** The state update of `setState(partial)`; props and identity are untouched. */
  function SetState(c: StateComponent, partial: Value): (r: StateComponent)
    ensures r.classId == c.classId && r.props == c.props
    ensures r.state.Keys == c.state.Keys + Spread(partial).Keys
    ensures forall k | k in Spread(partial) :: r.state[k] == Spread(partial)[k]
    ensures forall k | k in c.state && k !in Spread(partial) :: r.state[k] == c.state[k]
  {
    c.(state := Merge(c.state, partial))
  }

  /** Applying the same partial state twice is the same as applying it once. */
  lemma SetStateIdempotent(c: StateComponent, partial: Value)
    ensures SetState(SetState(c, partial), partial) == SetState(c, partial)
  {
    var once := SetState(c, partial);
    assert SetState(once, partial).state == once.state;
  }

  /** `setState` with `undefined`, `null` or `{}` leaves the state as it was. */
  lemma SetStateEmpty(c: StateComponent, partial: Value)
    requires partial.Undefined? || partial.Null? || partial == Obj(map[])
    ensures SetState(c, partial) == c
  {
    assert SetState(c, partial).state == c.state;
  }

  /** Two updates in a row equal one update with the two partials merged, the later one winning. */
  lemma SetStateTwice(c: StateComponent, first: map<string, Value>, second: map<string, Value>)
    ensures SetState(SetState(c, Obj(first)), Obj(second)) == SetState(c, Obj(first + second))
  {
    assert SetState(SetState(c, Obj(first)), Obj(second)).state == SetState(c, Obj(first + second)).state;
  }
}

=== FILE: values.dfy ===
/**
 The JavaScript values that flow through element resolution: props, resolved
 children, payload records and handler functions.  Only the parts of the
 language the resolver observes are modelled: truthiness, `String(x)`,
 `Array.prototype.join`, `Array.prototype.flat`, object spread and property
 lookup.
 */
module Values {

  /** The discord.js builder classes, kept opaque: a `Built` value records the
      plain object handed to the builder's constructor. */
  datatype BuilderKind =
    | EmbedBuilder
    | ActionRowBuilder
    | ButtonBuilder
    | SelectMenuBuilder
    | SelectMenuOptionBuilder
    | ModalBuilder
    | TextInputBuilder

  /** A constructed `DiscordStateComponent`: its class, the props it was
      constructed with and its current state object. */
  datatype StateComponent = StateComponent(classId: nat, props: map<string, Value>, state: map<string, Value>)

  /** A JavaScript value.  Numbers are integers; a function is identified by
      `id` and carries its source text, which is what `String(f)` yields. */
  datatype Value =
    | Undefined
    | Null
    | Bool(b: bool)
    | Num(n: int)
    | Str(s: string)
    | Arr(items: seq<Value>)
    | Obj(props: map<string, Value>)
    | Func(id: nat, source: string)
    | Built(kind: BuilderKind, data: map<string, Value>)
    | Instance(component: StateComponent)

  /** JavaScript truthiness: `undefined`, `null`, `false`, `0` and `""` are falsy. */
  predicate Truthy(v: Value) {
    match v
    case Undefined => false
    case Null => false
    case Bool(b) => b
    case Num(n) => n != 0
    case Str(s) => s != ""
    case _ => true
  }

  /** `o[key]` on an object with own properties `m`: `undefined` when absent. */
  function Prop(m: map<string, Value>, key: string): (r: Value)
    ensures key in m ==> r == m[key]
    ensures key !in m ==> r == Undefined
  {
    if key in m then m[key] else Undefined
  }

  /** `v[key]`: an own property of a plain object, otherwise `undefined`. */
  function Get(v: Value, key: string): (r: Value)
    ensures v.Obj? ==> r == Prop(v.props, key)
    ensures !v.Obj? ==> r == Undefined
  {
    if v.Obj? then Prop(v.props, key) else Undefined
  }

  /** The own properties `{...v}` copies; `null` and `undefined` copy none. */
  function Spread(v: Value): (m: map<string, Value>)
    ensures v.Obj? ==> m == v.props
    ensures v.Undefined? || v.Null? ==> m == map[]
  {
    if v.Obj? then v.props else map[]
  }

  function DigitChar(d: nat): char
    requires d < 10
  {
    "0123456789"[d]
  }

  /** Decimal digits of a natural number, most significant first. */
  function NatToString(n: nat): (s: string)
    ensures |s| > 0
    ensures forall i | 0 <= i < |s| :: '0' <= s[i] <= '9'
  {
    if n < 10 then [DigitChar(n)] else NatToString(n / 10) + [DigitChar(n % 10)]
  }

  /** `String(n)` for an integral number. */
  function IntToString(i: int): string {
    if i < 0 then "-" + NatToString(-i) else NatToString(i)
  }

  const ObjectText := "[object Object]"

  /** `String(v)`. */
  function ToStr(v: Value): string
    decreases v, 0
  {
    match v
    case Undefined => "undefined"
    case Null => "null"
    case Bool(b) => if b then "true" else "false"
    case Num(n) => IntToString(n)
    case Str(s) => s
    case Arr(items) => Join(items, ",")
    case Obj(_) => ObjectText
    case Func(_, source) => source
    case Built(_, _) => ObjectText
    case Instance(_) => ObjectText
  }

  /** How `join` renders one element: `null` and `undefined` become empty. */
  function Piece(v: Value): (s: string)
    decreases v, 1
  {
    if v.Undefined? || v.Null? then "" else ToStr(v)
  }

  /** `xs.join(sep)`. */
  function Join(xs: seq<Value>, sep: string): string
    decreases xs
  {
    if xs == [] then ""
    else if |xs| == 1 then Piece(xs[0])
    else Piece(xs[0]) + sep + Join(xs[1..], sep)
  }

  /** `xs.flat(depth)`: arrays nested at most `depth` levels deep are spliced in place. */
  function Flat(xs: seq<Value>, depth: nat): seq<Value>
    decreases xs
  {
    if xs == [] then []
    else (if depth > 0 && xs[0].Arr? then Flat(xs[0].items, depth - 1) else [xs[0]]) + Flat(xs[1..], depth)
  }

  /** Reference: the leaves of `xs`, in order, with every level of nesting removed. */
  function Leaves(xs: seq<Value>): seq<Value>
    decreases xs
  {
    if xs == [] then []
    else (if xs[0].Arr? then Leaves(xs[0].items) else [xs[0]]) + Leaves(xs[1..])
  }

  /** Reference: the in-order concatenation of the pieces `join` renders. */
  function Text(xs: seq<Value>): string {
    if xs == [] then "" else Piece(xs[0]) + Text(xs[1..])
  }

  /** Arrays in `xs` are nested no more than `d` levels deep. */
  predicate NestedWithin(xs: seq<Value>, d: nat)
    decreases xs
  {
    forall i | 0 <= i < |xs| :: xs[i].Arr? ==> d > 0 && NestedWithin(xs[i].items, d - 1)
  }

  /** No element of `xs` is an array. */
  predicate NoArrays(xs: seq<Value>) {
    forall i | 0 <= i < |xs| :: !xs[i].Arr?
  }

  /** Every element of `xs` is a string. */
  predicate AllStrings(xs: seq<Value>) {
    forall i | 0 <= i < |xs| :: xs[i].Str?
  }

  /** Reference: the concatenation of the strings in `xs`. */
  function Concat(xs: seq<Value>): string
    requires AllStrings(xs)
  {
    if xs == [] then "" else xs[0].s + Concat(xs[1..])
  }

  /** `flat(d)` removes all nesting whenever the arrays are at most `d` deep. */
  lemma {:induction false} FlatWithinDepth(xs: seq<Value>, d: nat)
    requires NestedWithin(xs, d)
    ensures Flat(xs, d) == Leaves(xs)
    decreases xs
  {
    if xs != [] {
      if xs[0].Arr? {
        FlatWithinDepth(xs[0].items, d - 1);
      }
      assert NestedWithin(xs[1..], d) by {
        forall i | 0 <= i < |xs[1..]| && xs[1..][i].Arr?
          ensures d > 0 && NestedWithin(xs[1..][i].items, d - 1)
        {
          assert xs[1..][i] == xs[i + 1];
        }
      }
      FlatWithinDepth(xs[1..], d);
    }
  }

  /** The leaves of any value sequence contain no arrays. */
  lemma {:induction false} LeavesHaveNoArrays(xs: seq<Value>)
    ensures NoArrays(Leaves(xs))
    decreases xs
  {
    if xs != [] {
      if xs[0].Arr? {
        LeavesHaveNoArrays(xs[0].items);
      }
      LeavesHaveNoArrays(xs[1..]);
    }
  }

  /** A sequence without arrays is its own set of leaves. */
  lemma {:induction false} LeavesOfFlat(xs: seq<Value>)
    requires NoArrays(xs)
    ensures Leaves(xs) == xs
  {
    if xs != [] {
      assert !xs[0].Arr?;
      LeavesOfFlat(xs[1..]);
    }
  }

  /** `join("")` is the plain concatenation of the rendered pieces. */
  lemma {:induction false} JoinEmptySeparator(xs: seq<Value>)
    ensures Join(xs, "") == Text(xs)
  {
    if |xs| > 1 {
      JoinEmptySeparator(xs[1..]);
    }
  }

  /** On strings, the rendered pieces are the strings themselves. */
  lemma {:induction false} TextOfStrings(xs: seq<Value>)
    requires AllStrings(xs)
    ensures Text(xs) == Concat(xs)
  {
    if xs != [] {
      assert AllStrings(xs[1..]) by {
        forall i | 0 <= i < |xs[1..]| ensures xs[1..][i].Str? {
          assert xs[1..][i] == xs[i + 1];
        }
      }
      TextOfStrings(xs[1..]);
      assert Piece(xs[0]) == ToStr(xs[0]) == xs[0].s;
    }
  }

  /** `flat(d).join("")` renders the leaves in order when nesting stays within
      `d`; no array is left over, so no piece is an array joined with commas. */
  lemma JoinFlat(xs: seq<Value>, d: nat)
    ensures NestedWithin(xs, d) ==> NoArrays(Flat(xs, d))
    ensures NestedWithin(xs, d) ==> Join(Flat(xs, d), "") == Text(Leaves(xs))
  {
    JoinEmptySeparator(Flat(xs, d));
    if NestedWithin(xs, d) {
      FlatWithinDepth(xs, d);
      LeavesHaveNoArrays(xs);
    }
  }

  /** Strings nest nowhere, so `flat(d).join("")` of string children is their concatenation. */
  lemma JoinFlatStrings(xs: seq<Value>, d: nat)
    requires AllStrings(xs)
    ensures Join(Flat(xs, d), "") == Concat(xs)
  {
    assert NestedWithin(xs, d);
    assert NoArrays(xs);
    FlatWithinDepth(xs, d);
    LeavesOfFlat(xs);
    JoinEmptySeparator(xs);
    TextOfStrings(xs);
  }
}

=== FILE: wrappers.dfy ===
/** The optional-value and result wrappers shared by the rest of the model. */
module Wrappers {

  /** An optional value: a JavaScript property that may be absent. */
  datatype Option<+T> = None | Some(value: T)

  /** The outcome of a call that may throw: `Err` carries the thrown error. */
  datatype Result<+T, +E> = Ok(value: T) | Err(error: E)
}
